=== FILE: README.md ===
# Multicast signal model (Ardour `PBD::SignalN`)

This project models the runtime behaviour of the signal classes that
`libs/pbd/pbd/signals.py` writes out as C++ text (`Signal0` … `Signal5`, each
with a void specialisation), together with the generator's one pure helper,
`comma_separated`.

A signal is a registry: a map from `Connection` tokens to slots. The model
keeps that map as an immutable Dafny `map<ConnId, Slot>` inside `Registry`,
and every lock region of the C++ becomes one atomic, pure step:

- `Slots` — the map, `_connect`, `disconnect`, `empty`, `size` and the
  destructor that tells each registered connection the signal is going away.
- `Connecting` — the four public `connect` overloads: same-thread delivery
  stores the user's callable (`Direct`); cross-thread delivery stores the
  `compositor` wrapper (`Compositor`) and points a non-null invalidation
  record at the event loop. The new connection is handed to a
  `ScopedConnection` or `ScopedConnectionList` (`Scope`).
- `Emission` — `operator()`: the map is copied, then the copy is walked;
  before each call the connection is looked up in the live map and skipped
  if it is gone. A slot's invocation is modelled as a `Reaction`: its return
  value plus the connects and disconnects it performs on the same signal.
  The walk threads the live map, the list of invoked connections, the
  `std::list<R>` of return values and the queue of requests posted to event
  loops. A compositor does not run the user's callable; it posts
  `(ir, callable, argument)` to `event_loop->call_slot`. A non-void signal
  hands the collected values to the combiner `C` (`EmitCombined`); the void
  specialisation is the same walk with the values dropped.
- `Text` — `comma_separated` as the generator's loop, proved equal to a
  reference join.
- `Scenarios` — concrete emissions: call order, the default combiner,
  reentrant disconnect and connect, and a cross-thread connection.

Ordering. The map is `std::map<boost::shared_ptr<Connection>, …>`, so it is
iterated in `boost::shared_ptr` key order, which compares the addresses of
the shared ownership blocks and has nothing to do with connection time. The comment above
`operator()` (`signals.py:222-224`) says slots run "in the order that they were
connected", but the code does not ensure this. The model follows the code.
An emission takes the snapshot order as a parameter: any sequence that visits
each key exactly once (`IsSnapshotOrder`). Every general emission lemma is
proved for every such order, and none of them assumes connection order; only
the concrete emissions in `Scenarios` fix one order.

Fresh connections. `new Connection (this)` always yields an object that is not
a key of the map. The model draws connection ids from a counter `next`, and
`Registry.Valid()` says every key is below it. Pointer values themselves are
not modelled. Every registry that can be reached satisfies `Valid()`: the
empty registry does, and connect, disconnect and a slot's reentrant actions
preserve it. Operations that create connections therefore require it.

Collaborators whose code is not shown become parameters: a slot's behaviour
is `react: (SlotFn, A) -> Reaction<R>`, and the combiner is
`combine: seq<R> -> T`. Arity is one generic argument `A`.

## Model

| member | source | states |
|---|---|---|
| Text.CommaSeparated | libs/pbd/pbd/signals.py:41-47 | the loop's result equals the reference join: "" for an empty list; otherwise each item prefixed, in order, with ", " between consecutive items, starting with the first prefixed item |
| Text.JoinedAppend | libs/pbd/pbd/signals.py:41-47 | joining two non-empty lists puts exactly one ", " at the seam: no separator is doubled or dropped |
| Slots.EmptyRegistry | libs/pbd/pbd/signals.py:103-107 | a signal starts with an empty slot map that satisfies the fresh-id invariant |
| Slots.Connect | libs/pbd/pbd/signals.py:293-305 | the new connection was not in the map, now maps to the given slot, every other entry is unchanged, the map grows by exactly one and the invariant is kept |
| Slots.Disconnect | libs/pbd/pbd/signals.py:308-318 | only `c` is removed, every remaining entry keeps its slot; an absent connection leaves the registry unchanged; a present one shrinks the count by one |
| Slots.DisconnectIdempotent | libs/pbd/pbd/signals.py:308-318 | disconnecting an already disconnected connection changes nothing |
| Slots.DisconnectUndoesConnect | libs/pbd/pbd/signals.py:293-318 | disconnecting the connection just made restores the original map |
| Slots.DisconnectCommutes | libs/pbd/pbd/signals.py:308-318 | two disconnects give the same registry in either order |
| Slots.EmptyTracksConnections | libs/pbd/pbd/signals.py:270-274 | `empty()` is false right after a connect, and true again once that only connection is disconnected |
| Slots.IsEmpty | libs/pbd/pbd/signals.py:271-274 | `empty()` holds exactly when the map of connections has no entries |
| Slots.Size | libs/pbd/pbd/signals.py:276-281 | the corrected `size()`: the number of connections, zero exactly when `empty()` holds (the contracts of `Slots.Connect` and `Slots.Disconnect` state how it moves by one) |
| Slots.SizeAsWritten | libs/pbd/pbd/signals.py:276-281 | `size()` as declared (`bool`) reports only whether the map is non-empty |
| Slots.SizeAsWrittenLosesCount | libs/pbd/pbd/signals.py:277-280 | with two or more connections, the value `size()` yields as a number is 1, not the count |
| Slots.SizeAsWrittenCounterexample | libs/pbd/pbd/signals.py:277-280 | a concrete signal with two connections whose `size()` reads back as 1 |
| Slots.Destroy | libs/pbd/pbd/signals.py:111-119 | the destructor calls `signal_going_away` once on each connection in the map and on no other; afterwards exactly those connections, plus any already marked, carry the going-away mark |
| Connecting.ConnectSameThread | libs/pbd/pbd/signals.py:141-154 | the user's callable itself is stored under a fresh connection, the rest of the map is unchanged (when a `ScopedConnection` owner held nothing before), and the owner receives the connection: a `ScopedConnection` then holds it, a `ScopedConnectionList` gains it at the end and keeps its earlier ones in order |
| Connecting.ConnectCrossThread | libs/pbd/pbd/signals.py:181-219 | a non-null invalidation record gets its `event_loop` set to the given loop, other records are untouched, a null one changes nothing; the map stores the compositor wrapper under a fresh connection and the rest of the map is unchanged (when a `ScopedConnection` owner held nothing before); the owner receives the connection as for a same-thread connect |
| Emission.Apply | libs/pbd/pbd/signals.py:293-318 | a slot's reentrant connects and disconnects keep the invariant; a connection that existed before survives exactly when no action disconnected it, and keeps its slot; the `k`-th connect creates the `k`-th fresh connection, which holds that connect's slot and survives exactly when no later action disconnects it |
| Emission.Step | libs/pbd/pbd/signals.py:250-261 | one turn invokes the connection exactly when it is still in the live map, and only ever appends to the collected values and the post queue |
| Emission.Walk | libs/pbd/pbd/signals.py:243-262 | the walk only appends to the invoked list, the return values and the post queue; the invoked connections form a subsequence of the snapshot order |
| Emission.Emit | libs/pbd/pbd/signals.py:233-262 | invoked connections follow snapshot order, each at most once, and all were in the map when it was copied, so a slot connected during the emission is not called in it |
| Emission.StepLive | libs/pbd/pbd/signals.py:250-258 | one turn removes an older connection from the live map exactly when the slot that ran disconnected it |
| Emission.WalkInvokedIff | libs/pbd/pbd/signals.py:244-256 | a snapshot entry is invoked if and only if it is live at the start and no slot invoked earlier in the walk disconnected it |
| Emission.InvokedIffNotDisconnectedEarlier | libs/pbd/pbd/signals.py:243-262 | in an emission, a snapshot entry is called if and only if no slot called before it in the same pass disconnected it |
| Emission.WalkOutputs | libs/pbd/pbd/signals.py:241-262 | the walk collects exactly the return values of the slots it ran and posts exactly for the compositors it ran, in invocation order; skipped entries contribute nothing |
| Emission.ApplyAppend | libs/pbd/pbd/signals.py:293-318 | performing two lists of connects and disconnects one after the other is the same as performing their concatenation |
| Emission.WalkLive | libs/pbd/pbd/signals.py:243-262 | the live map at the end of the walk is the one at its start with the actions of every invoked slot performed in invocation order; skipped entries and compositors change nothing |
| Emission.EmitLive | libs/pbd/pbd/signals.py:233-262 | the signal's map after an emission is the map before it with the actions of every invoked slot performed in invocation order |
| Emission.ActionsDisconnect | libs/pbd/pbd/signals.py:308-318 | the actions of a list of invoked slots disconnect a connection exactly when one of those slots disconnects it |
| Emission.EmitKeepsUndisconnected | libs/pbd/pbd/signals.py:233-262 | a connection registered before an emission is still registered after it, with the same slot, exactly when no slot invoked during the emission disconnected it |
| Emission.EmitNewConnections | libs/pbd/pbd/signals.py:233-262 | the `k`-th connect made by the invoked slots gets the `k`-th fresh connection, holding that connect's slot, and survives the emission exactly when no later action disconnects it; every invoked connection predates the emission, so none of the new ones runs in it |
| Emission.EmitOutputs | libs/pbd/pbd/signals.py:241-262 | the list built by an emission holds the return values of the invoked slots in invocation order, and the posts match the invoked compositors |
| Emission.EmitCombined | libs/pbd/pbd/signals.py:264-267 | the combiner receives exactly the return values of the invoked slots, in invocation order, and the signal is left with the emission's live map |
| Emission.ResultsOfEmpty | libs/pbd/pbd/signals.py:256-261 | no return value is collected exactly when none of the called connections holds a direct slot |
| Emission.ResultsOfLast | libs/pbd/pbd/signals.py:256-261 | when values are collected, the last one is the return value of the last direct slot among the called connections |
| Emission.DefaultCombinerYieldsLastValue | libs/pbd/pbd/signals.py:264-267 | with the default combiner `OptionalLastValue<R>` (`signals.py:86`), an emission yields no value exactly when no direct slot was called, and otherwise the return value of the last direct slot called |
| Emission.WalkCompositors | libs/pbd/pbd/signals.py:129-131 | compositor turns only post: the live map and the collected values are untouched and every live entry is invoked |
| Emission.CrossThreadEmissionOnlyPosts | libs/pbd/pbd/signals.py:129-131 | emitting a signal whose connections are all cross-thread posts one request per connection in snapshot order, runs no user callable, and leaves the map unchanged |
| Scenarios.OrderAndLastValue | libs/pbd/pbd/signals.py:243-267 | three slots returning 1, 2, 3 are called in snapshot order and the default combiner yields 3 |
| Scenarios.EmptySignalHasNoValue | libs/pbd/pbd/signals.py:264-267 | emitting a signal with no connections yields no value |
| Scenarios.ReentrantDisconnectSkips | libs/pbd/pbd/signals.py:244-256 | a slot that disconnects a later one makes it skipped in the same pass; the slot after it still runs and only two values are collected |
| Scenarios.ReentrantConnectWaits | libs/pbd/pbd/signals.py:233-239 | a slot connected during an emission is registered afterwards but not called in that emission |
| Scenarios.DisconnectedBeforeEmissionNotCalled | libs/pbd/pbd/signals.py:308-318 | after `disconnect(c)`, an emission never calls `c` |
| Scenarios.CrossThreadConnectThenEmit | libs/pbd/pbd/signals.py:181-199 | after a cross-thread connect, emitting posts `(ir, callable, argument)` to the loop, collects no value and runs no user callable |

## Left out

- Generator I/O: argument handling, file writing and printing of class text, and the `typename` workaround (`signals.py:31-37, 70-99`). These only produce text.
- The arity enumeration 0–5 and the void/non-void template pairs (`signals.py:322-324`). The model has one generic argument `A`, and a void signal is `Emit` with its return values ignored.
- Mutex locking and concurrent emissions from several threads. Each lock region is one atomic step. Cross-thread interleavings are not modelled.
- The `DEBUG_PBD_SIGNAL_CONNECTIONS` blocks (`signals.py:298-303, 312-317`). They only write diagnostics.
- Connecting.ConnectSameThread, Connecting.ConnectCrossThread: assigning the new connection to a `ScopedConnection` that already holds one first disconnects the old one (`signals.py:142, 218`); if that connection belongs to this signal, the map loses it. The model leaves the map otherwise unchanged, because `ScopedConnection` is not part of this model.
- `Connection`, `ScopedConnection` and `ScopedConnectionList` are not part of this model. Only the hand-over to the owner (`Hold`) and the going-away mark (`Destroy`) are represented. A `ScopedConnection` releasing its previous connection on assignment is not represented.
- `EventLoop::call_slot` and its invalidation check are not part of this model. A post is appended to a queue and never executed here.
- `OptionalLastValue` is defined outside `signals.py` and is not part of this model. `Emission.OptionalLastValue` follows its documented meaning: the last value, or none. Any other combiner is a parameter of `Emission.EmitCombined`.
- A slot that emits the same signal again from inside its own call (nested emission) is not modelled. A slot's reentrant actions are limited to connect and disconnect.
- A callable's `Reaction` is a function of the callable and the argument, so in the model a callable behaves the same way every time it is called.
- Failure to allocate a new `Connection` is not modelled.
- Cross-thread connects made by a slot during an emission. Such a connect also sets `ir->event_loop` (`signals.py:186-188, 214-216`). `Emission.Apply` stores the compositor under a fresh connection but threads no invalidation records through the walk, so it does not point the record at the loop. Only a top-level connect (`Connecting.ConnectCrossThread`) models that assignment.
- Compositor entries on non-void signals. The compositor bind returns `void`, so it is only storable in a void signal's `slot_function_type` (`signals.py:199, 218`). The model lets a compositor entry contribute no return value, whereas the non-void loop pushes a value for every called entry (`signals.py:260`).
- Exceptions. An empty callable accepted by `_connect` (`signals.py:293`) throws `boost::bad_function_call` when called (`signals.py:258, 260`), and any slot may throw. The exception leaves `operator()`, so later snapshot entries and the combiner (`signals.py:266-267`) never run. In the model every call returns, and `Emission.Step` and `Emission.Walk` always complete.
- `Slots.Destroy`: the calls are made in an unspecified order. The C++ loop visits the map in key order.
- `Text.CommaSeparated`: items are strings. Python's `%s` formatting of non-string items is not modelled.

## Findings

| source | as written | input that shows it | evidently intended | confidence | as-written member | corrected member |
|---|---|---|---|---|---|---|
| libs/pbd/pbd/signals.py:277-280 | `size()` is declared `bool` and returns `_slots.size ()`, so the count is converted to "non-empty" | a signal with two connections: `size()` returns `true`, which reads back as 1, not 2 (`Slots.SizeAsWrittenCounterexample`, and `Slots.SizeAsWrittenLosesCount` for every count of two or more) | return the number of connections (`size_t`) | high; not executed | Slots.SizeAsWritten | Slots.Size |

=== FILE: connecting.dfy ===
/** The public connect overloads: same-thread delivery stores the user's
    callable, cross-thread delivery stores a `compositor` wrapper bound to an
    event loop and an optional invalidation record. The new connection is
    handed to a scoped owner. */
module Connecting {
  import opened Wrappers
  import opened Slots

  /** The owner that receives the new connection: a `ScopedConnection`
      (holds one) or a `ScopedConnectionList` (accumulates many). */
  datatype Scope =
    | Single(held: Option<ConnId>)
    | List(all: seq<ConnId>)

  /** Give `c` to the owner: assignment to a `ScopedConnection`,
      `add_connection` on a `ScopedConnectionList`. */
  function Hold(scope: Scope, c: ConnId): Scope {
    match scope
    case Single(_) => Single(Some(c))
    case List(cs) => List(cs + [c])
  }

  /** Result of a connect call: the new table, the owner, the new connection. */
  datatype Connected = Connected(reg: Registry, scope: Scope, conn: ConnId)

  /** `connect_same_thread`: the user's callable itself is stored, under a
      fresh connection, and the owner receives that connection. */
  function ConnectSameThread(reg: Registry, scope: Scope, fn: SlotFn): (r: Connected)
    requires reg.Valid()
    ensures r.reg.Valid()
    ensures r.conn !in reg.slots
    ensures r.reg.slots.Keys == reg.slots.Keys + {r.conn}
    ensures r.conn in r.reg.slots && r.reg.slots[r.conn] == Direct(fn)
    ensures forall k :: k in reg.slots ==> r.reg.slots[k] == reg.slots[k]
    ensures r.scope.Single? <==> scope.Single?
    ensures r.scope.Single? ==> r.scope.held == Some(r.conn)
    ensures r.scope.List? ==>
              (|r.scope.all| == |scope.all| + 1 &&
               r.scope.all[..|scope.all|] == scope.all && r.scope.all[|scope.all|] == r.conn)
  {
    var (reg', c) := Connect(reg, Direct(fn));
    Connected(reg', Hold(scope, c), c)
  }

  /** Cross-thread `connect`: a non-null invalidation record is pointed at
      the event loop; the map receives the `compositor` wrapper, never the
      user's callable. `loops` maps each invalidation record to its
      `event_loop` field. */
  function ConnectCrossThread(reg: Registry, scope: Scope, loops: map<IrId, LoopId>,
                              ir: Option<IrId>, fn: SlotFn, loop: LoopId): (r: (Connected, map<IrId, LoopId>))
    requires reg.Valid()
    ensures r.0.reg.Valid()
    ensures r.0.conn !in reg.slots
    ensures r.0.reg.slots.Keys == reg.slots.Keys + {r.0.conn}
    ensures r.0.conn in r.0.reg.slots && r.0.reg.slots[r.0.conn] == Compositor(fn, loop, ir)
    ensures forall k :: k in reg.slots ==> r.0.reg.slots[k] == reg.slots[k]
    ensures r.0.scope.Single? <==> scope.Single?
    ensures r.0.scope.Single? ==> r.0.scope.held == Some(r.0.conn)
    ensures r.0.scope.List? ==>
              (|r.0.scope.all| == |scope.all| + 1 &&
               r.0.scope.all[..|scope.all|] == scope.all && r.0.scope.all[|scope.all|] == r.0.conn)
    ensures ir.Some? ==> ir.value in r.1 && r.1[ir.value] == loop
    ensures forall i :: i in loops && ir != Some(i) ==> i in r.1 && r.1[i] == loops[i]
    ensures r.1.Keys == if ir.Some? then loops.Keys + {ir.value} else loops.Keys
  {
    var loops' := if ir.Some? then loops[ir.value := loop] else loops;
    var (reg', c) := Connect(reg, Compositor(fn, loop, ir));
    (Connected(reg', Hold(scope, c), c), loops')
  }
}

=== FILE: emission.dfy ===
/** Emission (`operator()`): copy the map, then walk the copy; before each
    call check that the connection is still in the live map and skip it if
    not. Slots may connect and disconnect while the walk runs. */
module Emission {
  import opened Wrappers
  import opened Sequences
  import opened Slots

  /** What a running slot does to the signal that is calling it. */
  datatype Action = ConnectSlot(slot: Slot) | DisconnectConn(conn: ConnId)

  /** One invocation of a user callable: its return value and the connects
      and disconnects it performs on this signal, in order. */
  datatype Reaction<R> = Reaction(result: R, actions: seq<Action>)

  /** A request handed to `event_loop->call_slot (ir, bound call)`: the
      callable bound to the emission's argument, to be run later by `loop`. */
  datatype Post<A> = Post(ir: Option<IrId>, loop: LoopId, fn: SlotFn, arg: A)

  /** State threaded through the walk: the live map, the connections invoked
      so far, the return values collected so far (`std::list<R> r`) and the
      requests posted to event loops so far (append-only). */
  datatype Pass<A, R> = Pass(live: Registry, invoked: seq<ConnId>, results: seq<R>, posted: seq<Post<A>>)

  /** The order in which iterating the copied map visits its keys: each key
      exactly once. The map is ordered by `boost::shared_ptr` key order,
      which compares the addresses of the shared ownership blocks and has
      nothing to do with connection time, so no particular order is assumed. */
  ghost predicate IsSnapshotOrder(order: seq<ConnId>, keys: set<ConnId>) {
    Distinct(order) && forall c :: c in order <==> c in keys
  }

  /** Connections disconnected by a list of actions. */
  function Disconnects(acts: seq<Action>): set<ConnId>
    decreases |acts|
  {
    if acts == [] then {}
    else (if acts[0].DisconnectConn? then {acts[0].conn} else {}) + Disconnects(acts[1..])
  }

  /** Disconnects of a concatenation are those of its two parts. */
  lemma {:induction false} DisconnectsAppend(a: seq<Action>, b: seq<Action>)
    ensures Disconnects(a + b) == Disconnects(a) + Disconnects(b)
    decreases |a|
  {
    if a == [] {
      assert a + b == b;
    } else {
      assert (a + b)[0] == a[0] && (a + b)[1..] == a[1..] + b;
      DisconnectsAppend(a[1..], b);
    }
  }

  /** The slots connected by a list of actions, in order. */
  function Connects(acts: seq<Action>): seq<Slot>
    decreases |acts|
  {
    if acts == [] then []
    else (if acts[0].ConnectSlot? then [acts[0].slot] else []) + Connects(acts[1..])
  }

  /** The actions that follow the `k`-th connect of the list. */
  function AfterConnect(acts: seq<Action>, k: nat): seq<Action>
    requires k < |Connects(acts)|
    decreases |acts|
  {
    if acts[0].ConnectSlot? then (if k == 0 then acts[1..] else AfterConnect(acts[1..], k - 1))
    else AfterConnect(acts[1..], k)
  }

  /** Perform a slot's reentrant actions on the live map, one lock region each.
      Connections that existed before are present afterwards exactly when no
      action disconnected them, with their slot unchanged. Each connect makes
      a new `Connection`: the `k`-th one gets the `k`-th fresh identity and
      stores its slot there, and it is present afterwards exactly when no
      later action disconnected it. */
  function Apply(reg: Registry, acts: seq<Action>): (r: Registry)
    requires reg.Valid()
    ensures r.Valid() && r.next >= reg.next
    ensures forall c :: c < reg.next ==> (c in r.slots <==> c in reg.slots && c !in Disconnects(acts))
    ensures forall c :: c in r.slots && c < reg.next ==> c in reg.slots && r.slots[c] == reg.slots[c]
    ensures r.next == reg.next + |Connects(acts)|
    ensures forall k :: 0 <= k < |Connects(acts)| ==>
              (reg.next + k in r.slots <==> reg.next + k !in Disconnects(AfterConnect(acts, k)))
    ensures forall k :: 0 <= k < |Connects(acts)| && reg.next + k in r.slots ==> r.slots[reg.next + k] == Connects(acts)[k]
    decreases |acts|, 2
  {
    if acts == [] then reg
    else
      ApplyStep(reg, acts);
      Apply(Perform(reg, acts[0]), acts[1..])
  }

  /** One action in its own lock region: `_connect` or `disconnect`. */
  function Perform(reg: Registry, a: Action): Registry
    requires reg.Valid()
  {
    match a
    case ConnectSlot(s) => Connect(reg, s).0
    case DisconnectConn(c) => Disconnect(reg, c)
  }

  /** The contract of `Apply` for a non-empty list, from that of its rest. */
  lemma ApplyStep(reg: Registry, acts: seq<Action>)
    requires reg.Valid() && acts != []
    ensures Applied(reg, acts, Apply(Perform(reg, acts[0]), acts[1..]))
    decreases |acts|, 1
  {
    var reg' := Perform(reg, acts[0]);
    var r := Apply(reg', acts[1..]);
    assert Applied(reg', acts[1..], r);
    if acts[0].ConnectSlot? {
      assert reg'.next == reg.next + 1 && reg'.slots == reg.slots[reg.next := acts[0].slot];
      ConnectApplied(reg, acts, reg', r);
    } else {
      assert reg'.next == reg.next && reg'.slots == reg.slots - {acts[0].conn};
      DisconnectApplied(reg, acts, reg', r);
    }
  }

  /** The contract of `Apply`, as a relation between the map before, the
      actions and the map after. */
  ghost predicate Applied(reg: Registry, acts: seq<Action>, r: Registry) {
    KeepsOld(reg, acts, r) && AddsNew(reg, acts, r)
  }

  /** The part of `Applied` about connections that existed before. */
  ghost predicate KeepsOld(reg: Registry, acts: seq<Action>, r: Registry) {
    && r.Valid() && r.next >= reg.next
    && (forall c :: c < reg.next ==> (c in r.slots <==> c in reg.slots && c !in Disconnects(acts)))
    && (forall c :: c in r.slots && c < reg.next ==> c in reg.slots && r.slots[c] == reg.slots[c])
  }

  /** The part of `Applied` about the connections the actions make. */
  ghost predicate AddsNew(reg: Registry, acts: seq<Action>, r: Registry) {
    && r.next == reg.next + |Connects(acts)|
    && (forall k :: 0 <= k < |Connects(acts)| ==>
          (reg.next + k in r.slots <==> reg.next + k !in Disconnects(AfterConnect(acts, k))))
    && (forall k :: 0 <= k < |Connects(acts)| && reg.next + k in r.slots ==> r.slots[reg.next + k] == Connects(acts)[k])
  }

  /** A leading connect followed by the rest of the actions meets the contract
      of `Apply` for the whole list. */
  lemma ConnectApplied(reg: Registry, acts: seq<Action>, reg': Registry, r: Registry)
    requires reg.Valid() && acts != [] && acts[0].ConnectSlot?
    requires reg'.next == reg.next + 1 && reg'.slots == reg.slots[reg.next := acts[0].slot]
    requires Applied(reg', acts[1..], r)
    ensures Applied(reg, acts, r)
  {
    assert Disconnects(acts) == Disconnects(acts[1..]);
    assert KeepsOld(reg', acts[1..], r);
    ConnectAddsNew(reg, acts, reg', r);
  }

  /** `AddsNew` across a leading connect: the connect takes `reg.next`, and
      the later connects the identities after it. */
  lemma ConnectAddsNew(reg: Registry, acts: seq<Action>, reg': Registry, r: Registry)
    requires acts != [] && acts[0].ConnectSlot?
    requires reg'.next == reg.next + 1 && reg'.slots == reg.slots[reg.next := acts[0].slot]
    requires KeepsOld(reg', acts[1..], r) && AddsNew(reg', acts[1..], r)
    ensures AddsNew(reg, acts, r)
  {
    var t := acts[1..];
    assert Connects(acts) == [acts[0].slot] + Connects(t);
    forall k | 0 <= k < |Connects(acts)|
      ensures reg.next + k in r.slots <==> reg.next + k !in Disconnects(AfterConnect(acts, k))
      ensures reg.next + k in r.slots ==> r.slots[reg.next + k] == Connects(acts)[k]
    {
      if k == 0 {
        assert AfterConnect(acts, 0) == t;
      } else {
        ShiftConnect(acts, k);
        assert reg.next + k == reg'.next + (k - 1);
      }
    }
  }

  /** The `k`-th connect of a list that starts with a connect is the
      `(k-1)`-th connect of its rest. */
  lemma ShiftConnect(acts: seq<Action>, k: nat)
    requires acts != [] && acts[0].ConnectSlot? && 0 < k < |Connects(acts)|
    ensures k - 1 < |Connects(acts[1..])|
    ensures AfterConnect(acts, k) == AfterConnect(acts[1..], k - 1)
    ensures Connects(acts)[k] == Connects(acts[1..])[k - 1]
  {
  }

  /** A leading disconnect followed by the rest of the actions meets the
      contract of `Apply` for the whole list. */
  lemma DisconnectApplied(reg: Registry, acts: seq<Action>, reg': Registry, r: Registry)
    requires reg.Valid() && acts != [] && acts[0].DisconnectConn?
    requires reg'.next == reg.next && reg'.slots == reg.slots - {acts[0].conn}
    requires Applied(reg', acts[1..], r)
    ensures Applied(reg, acts, r)
  {
    assert Disconnects(acts) == {acts[0].conn} + Disconnects(acts[1..]);
    assert KeepsOld(reg', acts[1..], r);
    DisconnectAddsNew(reg, acts, reg', r);
  }

  /** `AddsNew` across a leading disconnect, which takes no identity. */
  lemma DisconnectAddsNew(reg: Registry, acts: seq<Action>, reg': Registry, r: Registry)
    requires acts != [] && acts[0].DisconnectConn?
    requires reg'.next == reg.next
    requires AddsNew(reg', acts[1..], r)
    ensures AddsNew(reg, acts, r)
  {
    var t := acts[1..];
    assert Connects(acts) == Connects(t);
    forall k | 0 <= k < |Connects(acts)|
      ensures reg.next + k in r.slots <==> reg.next + k !in Disconnects(AfterConnect(acts, k))
      ensures reg.next + k in r.slots ==> r.slots[reg.next + k] == Connects(acts)[k]
    {
      assert AfterConnect(acts, k) == AfterConnect(t, k);
    }
  }

  /** Performing two lists of actions one after the other is performing
      their concatenation. */
  lemma {:induction false} ApplyAppend(reg: Registry, a: seq<Action>, b: seq<Action>)
    requires reg.Valid()
    ensures Apply(reg, a + b) == Apply(Apply(reg, a), b)
    decreases |a|
  {
    if a == [] {
      assert a + b == b;
    } else {
      assert (a + b)[0] == a[0] && (a + b)[1..] == a[1..] + b;
      ApplyAppend(Perform(reg, a[0]), a[1..], b);
    }
  }

  /** The connections the slot stored under `x` disconnects when it runs;
      none for a compositor, whose user callable does not run here. */
  function Kills<A, R>(snap: map<ConnId, Slot>, arg: A, react: (SlotFn, A) -> Reaction<R>, x: ConnId): set<ConnId> {
    if x in snap && snap[x].Direct? then Disconnects(react(snap[x].fn, arg).actions) else {}
  }

  /** One turn of the loop for connection `c`, whose slot in the copy is `slot`. */
  function Step<A, R>(acc: Pass<A, R>, c: ConnId, slot: Slot, arg: A, react: (SlotFn, A) -> Reaction<R>): (r: Pass<A, R>)
    requires acc.live.Valid()
    ensures r.live.Valid() && r.live.next >= acc.live.next
    ensures r.invoked == (if c in acc.live.slots then acc.invoked + [c] else acc.invoked)
    ensures acc.results <= r.results && acc.posted <= r.posted
  {
    if c !in acc.live.slots then acc
    else match slot
      case Direct(fn) =>
        var rx := react(fn, arg);
        Pass(Apply(acc.live, rx.actions), acc.invoked + [c], acc.results + [rx.result], acc.posted)
      case Compositor(fn, loop, ir) =>
        Pass(acc.live, acc.invoked + [c], acc.results, acc.posted + [Post(ir, loop, fn, arg)])
  }

  /** The walk over the copied map `snap`, visiting keys in `order`. */
  function Walk<A, R>(snap: map<ConnId, Slot>, order: seq<ConnId>, arg: A,
                      react: (SlotFn, A) -> Reaction<R>, acc: Pass<A, R>): (r: Pass<A, R>)
    requires acc.live.Valid()
    requires forall c :: c in order ==> c in snap
    ensures r.live.Valid() && r.live.next >= acc.live.next
    ensures acc.invoked <= r.invoked && acc.results <= r.results && acc.posted <= r.posted
    ensures IsSubseq(r.invoked[|acc.invoked|..], order)
    decreases |order|
  {
    if order == [] then acc
    else
      var c := order[0];
      var acc' := Step(acc, c, snap[c], arg, react);
      var r := Walk(snap, order[1..], arg, react, acc');
      SubseqStep(acc.invoked, acc'.invoked, r.invoked, order);
      r
  }

  /** One turn of the walk keeps the invoked connections a subsequence of the order. */
  lemma SubseqStep(before: seq<ConnId>, mid: seq<ConnId>, after: seq<ConnId>, order: seq<ConnId>)
    requires order != []
    requires mid == before || mid == before + [order[0]]
    requires mid <= after
    requires IsSubseq(after[|mid|..], order[1..])
    ensures IsSubseq(after[|before|..], order)
  {
    var xs := after[|before|..];
    if mid == before + [order[0]] {
      assert xs[0] == order[0];
      assert xs[1..] == after[|mid|..];
    } else if xs != [] {
      assert xs == after[|mid|..];
    }
  }

  /** `operator()`: copy the live map, then walk the copy in `order`.
      Invoked connections follow snapshot order, each at most once, and all
      of them were registered when the copy was taken: a connection made
      by a slot during this emission is not called in it. */
  function Emit<A, R>(reg: Registry, order: seq<ConnId>, arg: A, react: (SlotFn, A) -> Reaction<R>): (p: Pass<A, R>)
    requires reg.Valid()
    requires IsSnapshotOrder(order, reg.slots.Keys)
    ensures p.live.Valid()
    ensures IsSubseq(p.invoked, order)
    ensures Distinct(p.invoked)
    ensures forall c :: c in p.invoked ==> c in reg.slots
  {
    var p := Walk(reg.slots, order, arg, react, Pass(reg, [], [], []));
    SubseqDistinct(p.invoked, order);
    SubseqMembers(p.invoked, order);
    p
  }

  /** Connects and disconnects performed by the directly invoked slots among
      `ids`, in order; a compositor performs none here. */
  function ActionsOf<A, R>(snap: map<ConnId, Slot>, arg: A, react: (SlotFn, A) -> Reaction<R>, ids: seq<ConnId>): seq<Action>
    decreases |ids|
  {
    if ids == [] then []
    else (if ids[0] in snap && snap[ids[0]].Direct? then react(snap[ids[0]].fn, arg).actions else [])
         + ActionsOf(snap, arg, react, ids[1..])
  }

  /** Return values of the directly invoked slots among `ids`, in order. */
  function ResultsOf<A, R>(snap: map<ConnId, Slot>, arg: A, react: (SlotFn, A) -> Reaction<R>, ids: seq<ConnId>): seq<R>
    decreases |ids|
  {
    if ids == [] then []
    else (if ids[0] in snap && snap[ids[0]].Direct? then [react(snap[ids[0]].fn, arg).result] else [])
         + ResultsOf(snap, arg, react, ids[1..])
  }

  /** Requests posted by the compositors among `ids`, in order. */
  function PostsOf<A>(snap: map<ConnId, Slot>, arg: A, ids: seq<ConnId>): seq<Post<A>>
    decreases |ids|
  {
    if ids == [] then []
    else (if ids[0] in snap && snap[ids[0]].Compositor?
          then [Post(snap[ids[0]].ir, snap[ids[0]].loop, snap[ids[0]].fn, arg)] else [])
         + PostsOf(snap, arg, ids[1..])
  }

  /** The walk collects exactly the return values of the slots it invoked
      and posts exactly for the compositors it invoked, in invocation order;
      skipped connections contribute nothing. */
  lemma {:induction false} WalkOutputs<A, R>(snap: map<ConnId, Slot>, order: seq<ConnId>, arg: A,
                                             react: (SlotFn, A) -> Reaction<R>, acc: Pass<A, R>)
    requires acc.live.Valid()
    requires forall c :: c in order ==> c in snap
    ensures var r := Walk(snap, order, arg, react, acc);
      && r.results == acc.results + ResultsOf(snap, arg, react, r.invoked[|acc.invoked|..])
      && r.posted == acc.posted + PostsOf(snap, arg, r.invoked[|acc.invoked|..])
    decreases |order|
  {
    if order != [] {
      var c := order[0];
      var acc' := Step(acc, c, snap[c], arg, react);
      assert forall x :: x in order[1..] ==> x in order;
      var r := Walk(snap, order[1..], arg, react, acc');
      assert r == Walk(snap, order, arg, react, acc);
      WalkOutputs(snap, order[1..], arg, react, acc');
      StepOutputs(snap, arg, react, acc, c);
      var first: seq<ConnId> := if c in acc.live.slots then [c] else [];
      DropPrefix(acc.invoked, first, r.invoked);
      var rest := r.invoked[|acc'.invoked|..];
      ResultsAppend(snap, arg, react, first, rest);
      PostsAppend(snap, arg, first, rest);
      AppendAssoc(acc.results, ResultsOf(snap, arg, react, first), ResultsOf(snap, arg, react, rest));
      AppendAssoc(acc.posted, PostsOf(snap, arg, first), PostsOf(snap, arg, rest));
    }
  }

  /** One turn adds exactly the outputs of the connection it invoked, if any. */
  lemma StepOutputs<A, R>(snap: map<ConnId, Slot>, arg: A, react: (SlotFn, A) -> Reaction<R>, acc: Pass<A, R>, c: ConnId)
    requires acc.live.Valid() && c in snap
    ensures var first: seq<ConnId> := if c in acc.live.slots then [c] else [];
      var acc' := Step(acc, c, snap[c], arg, react);
      && acc'.invoked == acc.invoked + first
      && acc'.results == acc.results + ResultsOf(snap, arg, react, first)
      && acc'.posted == acc.posted + PostsOf(snap, arg, first)
  {
    if c in acc.live.slots {
      assert [c][1..] == [];
    } else {
      assert acc.invoked + [] == acc.invoked;
    }
  }

  /** `ActionsOf` distributes over concatenation. */
  lemma {:induction false} ActionsAppend<A, R>(snap: map<ConnId, Slot>, arg: A, react: (SlotFn, A) -> Reaction<R>,
                                               xs: seq<ConnId>, ys: seq<ConnId>)
    ensures ActionsOf(snap, arg, react, xs + ys) == ActionsOf(snap, arg, react, xs) + ActionsOf(snap, arg, react, ys)
    decreases |xs|
  {
    if xs == [] {
      assert xs + ys == ys;
    } else {
      var t := xs[1..];
      assert (xs + ys)[0] == xs[0] && (xs + ys)[1..] == t + ys;
      var h := if xs[0] in snap && snap[xs[0]].Direct? then react(snap[xs[0]].fn, arg).actions else [];
      ActionsAppend(snap, arg, react, t, ys);
      AppendAssoc(h, ActionsOf(snap, arg, react, t), ActionsOf(snap, arg, react, ys));
    }
  }

  /** One turn performs on the live map exactly the actions of the slot it invoked, if any. */
  lemma StepApplies<A, R>(snap: map<ConnId, Slot>, arg: A, react: (SlotFn, A) -> Reaction<R>, acc: Pass<A, R>, c: ConnId)
    requires acc.live.Valid() && c in snap
    ensures var first: seq<ConnId> := if c in acc.live.slots then [c] else [];
      Step(acc, c, snap[c], arg, react).live == Apply(acc.live, ActionsOf(snap, arg, react, first))
  {
    if c in acc.live.slots {
      assert [c][1..] == [];
      if snap[c].Direct? {
        var acts := react(snap[c].fn, arg).actions;
        assert ActionsOf(snap, arg, react, [c]) == acts + [];
        assert acts + [] == acts;
      }
    }
  }

  /** The live map at the end of the walk is the one at the start with the
      actions of every slot the walk invoked performed in invocation order. */
  lemma {:induction false} WalkLive<A, R>(snap: map<ConnId, Slot>, order: seq<ConnId>, arg: A,
                                          react: (SlotFn, A) -> Reaction<R>, acc: Pass<A, R>)
    requires acc.live.Valid()
    requires forall c :: c in order ==> c in snap
    ensures var r := Walk(snap, order, arg, react, acc);
      r.live == Apply(acc.live, ActionsOf(snap, arg, react, r.invoked[|acc.invoked|..]))
    decreases |order|
  {
    if order == [] {
      assert Walk(snap, order, arg, react, acc).invoked[|acc.invoked|..] == [];
    } else {
      var c := order[0];
      var acc' := Step(acc, c, snap[c], arg, react);
      assert forall x :: x in order[1..] ==> x in order;
      var r := Walk(snap, order[1..], arg, react, acc');
      assert r == Walk(snap, order, arg, react, acc);
      WalkLive(snap, order[1..], arg, react, acc');
      StepApplies(snap, arg, react, acc, c);
      var first: seq<ConnId> := if c in acc.live.slots then [c] else [];
      assert acc'.invoked == acc.invoked + first;
      DropPrefix(acc.invoked, first, r.invoked);
      var rest := r.invoked[|acc'.invoked|..];
      ActionsAppend(snap, arg, react, first, rest);
      ApplyAppend(acc.live, ActionsOf(snap, arg, react, first), ActionsOf(snap, arg, react, rest));
    }
  }

  /** `ResultsOf` distributes over concatenation. */
  lemma {:induction false} ResultsAppend<A, R>(snap: map<ConnId, Slot>, arg: A, react: (SlotFn, A) -> Reaction<R>,
                                               xs: seq<ConnId>, ys: seq<ConnId>)
    ensures ResultsOf(snap, arg, react, xs + ys) == ResultsOf(snap, arg, react, xs) + ResultsOf(snap, arg, react, ys)
    decreases |xs|
  {
    if xs == [] {
      assert xs + ys == ys;
    } else {
      var t := xs[1..];
      assert (xs + ys)[0] == xs[0] && (xs + ys)[1..] == t + ys;
      var h := if xs[0] in snap && snap[xs[0]].Direct? then [react(snap[xs[0]].fn, arg).result] else [];
      ResultsAppend(snap, arg, react, t, ys);
      AppendAssoc(h, ResultsOf(snap, arg, react, t), ResultsOf(snap, arg, react, ys));
    }
  }

  /** `PostsOf` distributes over concatenation. */
  lemma {:induction false} PostsAppend<A>(snap: map<ConnId, Slot>, arg: A, xs: seq<ConnId>, ys: seq<ConnId>)
    ensures PostsOf(snap, arg, xs + ys) == PostsOf(snap, arg, xs) + PostsOf(snap, arg, ys)
    decreases |xs|
  {
    if xs == [] {
      assert xs + ys == ys;
    } else {
      var t := xs[1..];
      assert (xs + ys)[0] == xs[0] && (xs + ys)[1..] == t + ys;
      var h := if xs[0] in snap && snap[xs[0]].Compositor?
        then [Post(snap[xs[0]].ir, snap[xs[0]].loop, snap[xs[0]].fn, arg)] else [];
      PostsAppend(snap, arg, t, ys);
      AppendAssoc(h, PostsOf(snap, arg, t), PostsOf(snap, arg, ys));
    }
  }

  /** Every connection invoked by the walk was either invoked before it or is in `order`. */
  lemma WalkInvokedFrom<A, R>(snap: map<ConnId, Slot>, order: seq<ConnId>, arg: A,
                              react: (SlotFn, A) -> Reaction<R>, acc: Pass<A, R>)
    requires acc.live.Valid()
    requires forall c :: c in order ==> c in snap
    ensures forall x :: x in Walk(snap, order, arg, react, acc).invoked ==> x in acc.invoked || x in order
  {
    var r := Walk(snap, order, arg, react, acc);
    SubseqMembers(r.invoked[|acc.invoked|..], order);
    forall x | x in r.invoked ensures x in acc.invoked || x in order {
      var k :| 0 <= k < |r.invoked| && r.invoked[k] == x;
      if k >= |acc.invoked| {
        assert r.invoked[|acc.invoked|..][k - |acc.invoked|] == x;
      }
    }
  }

  /** One turn for `c0` removes an older connection `cj` from the live map
      exactly when `c0` ran and disconnected it. */
  lemma StepLive<A, R>(snap: map<ConnId, Slot>, arg: A, react: (SlotFn, A) -> Reaction<R>,
                       acc: Pass<A, R>, c0: ConnId, cj: ConnId)
    requires acc.live.Valid()
    requires c0 in snap && cj < acc.live.next
    ensures var acc' := Step(acc, c0, snap[c0], arg, react);
      cj in acc'.live.slots <==> cj in acc.live.slots && !(c0 in acc.live.slots && cj in Kills(snap, arg, react, c0))
  {
  }

  /** The first connection of a walk is invoked by it exactly when it is live
      at the start (later turns only add connections drawn from the rest). */
  lemma WalkFirstInvoked<A, R>(snap: map<ConnId, Slot>, order: seq<ConnId>, arg: A,
                               react: (SlotFn, A) -> Reaction<R>, acc: Pass<A, R>)
    requires acc.live.Valid()
    requires forall c :: c in order ==> c in snap && c !in acc.invoked
    requires Distinct(order)
    requires order != []
    ensures order[0] in Walk(snap, order, arg, react, acc).invoked <==> order[0] in acc.live.slots
  {
    var c0 := order[0];
    var acc' := Step(acc, c0, snap[c0], arg, react);
    var r := Walk(snap, order, arg, react, acc);
    assert r == Walk(snap, order[1..], arg, react, acc');
    var tail := order[1..];
    assert forall c :: c in tail ==> c in order;
    WalkInvokedFrom(snap, tail, arg, react, acc');
    if c0 in acc.live.slots {
      assert acc'.invoked[|acc.invoked|] == c0;
      assert r.invoked[|acc.invoked|] == c0;
    } else {
      assert acc' == acc;
      forall k | 0 <= k < |tail| ensures tail[k] != c0 {
        assert order[k + 1] == tail[k];
      }
    }
  }

  /** The heart of reentrancy safety: the connection at position `j` of the
      walk is invoked exactly when it is live at the start and no slot
      invoked before it in this walk disconnected it. */
  lemma {:induction false} WalkInvokedIff<A, R>(snap: map<ConnId, Slot>, order: seq<ConnId>, arg: A,
                                                react: (SlotFn, A) -> Reaction<R>, acc: Pass<A, R>, j: nat)
    requires acc.live.Valid()
    requires forall c :: c in order ==> c in snap && c < acc.live.next && c !in acc.invoked
    requires Distinct(order)
    requires j < |order|
    ensures var r := Walk(snap, order, arg, react, acc);
      order[j] in r.invoked <==>
        (order[j] in acc.live.slots &&
         forall i :: 0 <= i < j && order[i] in r.invoked ==> order[j] !in Kills(snap, arg, react, order[i]))
    decreases |order|
  {
    WalkFirstInvoked(snap, order, arg, react, acc);
    if j > 0 {
      var c0 := order[0];
      var acc' := Step(acc, c0, snap[c0], arg, react);
      var r := Walk(snap, order, arg, react, acc);
      assert r == Walk(snap, order[1..], arg, react, acc');
      var tail := order[1..];
      var cj := order[j];
      assert tail[j - 1] == cj && cj in order;
      TailFacts(order, acc, acc');
      WalkInvokedIff(snap, tail, arg, react, acc', j - 1);
      StepLive(snap, arg, react, acc, c0, cj);
      ReindexEarlier(snap, arg, react, order, j, r.invoked);
    }
  }

  /** What the recursive call of `WalkInvokedIff` needs of the tail. */
  lemma TailFacts<A, R>(order: seq<ConnId>, acc: Pass<A, R>, acc': Pass<A, R>)
    requires order != [] && Distinct(order)
    requires forall c :: c in order ==> c < acc.live.next && c !in acc.invoked
    requires acc'.live.next >= acc.live.next
    requires acc'.invoked == acc.invoked || acc'.invoked == acc.invoked + [order[0]]
    ensures Distinct(order[1..])
    ensures forall c :: c in order[1..] ==> c < acc'.live.next && c !in acc'.invoked
  {
    var tail := order[1..];
    forall a, b | 0 <= a < b < |tail| ensures tail[a] != tail[b] {
      assert tail[a] == order[a + 1] && tail[b] == order[b + 1];
    }
    forall c | c in tail ensures c < acc'.live.next && c !in acc'.invoked {
      var k :| 0 <= k < |tail| && tail[k] == c;
      assert order[k + 1] == c && order[k + 1] != order[0];
      assert c in order;
    }
  }

  /** The condition "no earlier invoked slot disconnected `order[j]`" over the
      whole order splits into the first position and the positions of the tail. */
  lemma ReindexEarlier<A, R>(snap: map<ConnId, Slot>, arg: A, react: (SlotFn, A) -> Reaction<R>,
                             order: seq<ConnId>, j: nat, inv: seq<ConnId>)
    requires 0 < j < |order|
    ensures (forall i :: 0 <= i < j && order[i] in inv ==> order[j] !in Kills(snap, arg, react, order[i]))
      <==>
        ((forall i :: 0 <= i < j - 1 && order[1..][i] in inv ==> order[j] !in Kills(snap, arg, react, order[1..][i]))
         && (order[0] in inv ==> order[j] !in Kills(snap, arg, react, order[0])))
  {
    var tail := order[1..];
    forall i | 0 <= i < j - 1 ensures tail[i] == order[i + 1] { }
  }

  /** Emission-level statement of reentrancy safety: the connection at
      position `j` of the snapshot is invoked if and only if no slot invoked
      before it during this emission disconnected it. */
  lemma InvokedIffNotDisconnectedEarlier<A, R>(reg: Registry, order: seq<ConnId>, arg: A,
                                               react: (SlotFn, A) -> Reaction<R>, j: nat)
    requires reg.Valid()
    requires IsSnapshotOrder(order, reg.slots.Keys)
    requires j < |order|
    ensures var p := Emit(reg, order, arg, react);
      order[j] in p.invoked <==>
        forall i :: 0 <= i < j && order[i] in p.invoked ==> order[j] !in Kills(reg.slots, arg, react, order[i])
  {
    WalkInvokedIff(reg.slots, order, arg, react, Pass(reg, [], [], []), j);
  }

  /** The list handed to the combiner holds exactly the return values of the
      invoked slots, in invocation order; compositors post one request each. */
  lemma EmitOutputs<A, R>(reg: Registry, order: seq<ConnId>, arg: A, react: (SlotFn, A) -> Reaction<R>)
    requires reg.Valid()
    requires IsSnapshotOrder(order, reg.slots.Keys)
    ensures var p := Emit(reg, order, arg, react);
      && p.results == ResultsOf(reg.slots, arg, react, p.invoked)
      && p.posted == PostsOf(reg.slots, arg, p.invoked)
  {
    WalkOutputs(reg.slots, order, arg, react, Pass(reg, [], [], []));
  }

  /** The map after an emission is the map before it with the actions of
      every invoked slot performed in invocation order. */
  lemma EmitLive<A, R>(reg: Registry, order: seq<ConnId>, arg: A, react: (SlotFn, A) -> Reaction<R>)
    requires reg.Valid()
    requires IsSnapshotOrder(order, reg.slots.Keys)
    ensures var p := Emit(reg, order, arg, react);
      p.live == Apply(reg, ActionsOf(reg.slots, arg, react, p.invoked))
  {
    var p := Emit(reg, order, arg, react);
    WalkLive(reg.slots, order, arg, react, Pass(reg, [], [], []));
    assert p.invoked[0..] == p.invoked;
  }

  /** A connection is disconnected by the actions of the invoked slots exactly
      when one of those slots disconnects it. */
  lemma {:induction false} ActionsDisconnect<A, R>(snap: map<ConnId, Slot>, arg: A, react: (SlotFn, A) -> Reaction<R>,
                                                   ids: seq<ConnId>, c: ConnId)
    ensures c in Disconnects(ActionsOf(snap, arg, react, ids)) <==> exists x :: x in ids && c in Kills(snap, arg, react, x)
    decreases |ids|
  {
    if ids != [] {
      var t := ids[1..];
      var h := if ids[0] in snap && snap[ids[0]].Direct? then react(snap[ids[0]].fn, arg).actions else [];
      assert Disconnects(h) == Kills(snap, arg, react, ids[0]);
      DisconnectsAppend(h, ActionsOf(snap, arg, react, t));
      ActionsDisconnect(snap, arg, react, t, c);
      assert forall x :: x in ids <==> x == ids[0] || x in t;
    }
  }

  /** A connection registered before the emission is still registered after
      it, with the same slot, exactly when no slot invoked during the
      emission disconnected it. */
  lemma EmitKeepsUndisconnected<A, R>(reg: Registry, order: seq<ConnId>, arg: A, react: (SlotFn, A) -> Reaction<R>)
    requires reg.Valid()
    requires IsSnapshotOrder(order, reg.slots.Keys)
    ensures var p := Emit(reg, order, arg, react);
      && (forall c :: c in reg.slots ==>
            (c in p.live.slots <==> forall x :: x in p.invoked ==> c !in Kills(reg.slots, arg, react, x)))
      && (forall c :: c in reg.slots && c in p.live.slots ==> p.live.slots[c] == reg.slots[c])
  {
    var p := Emit(reg, order, arg, react);
    EmitLive(reg, order, arg, react);
    forall c | c in reg.slots
      ensures c in p.live.slots <==> forall x :: x in p.invoked ==> c !in Kills(reg.slots, arg, react, x)
    {
      ActionsDisconnect(reg.slots, arg, react, p.invoked, c);
    }
  }

  /** Connections made by the slots during an emission: the `k`-th connect
      among the invoked slots' actions gets the `k`-th fresh identity, holds
      its slot, and is registered afterwards exactly when no later action
      disconnected it. None of them is invoked in this emission. */
  lemma EmitNewConnections<A, R>(reg: Registry, order: seq<ConnId>, arg: A, react: (SlotFn, A) -> Reaction<R>)
    requires reg.Valid()
    requires IsSnapshotOrder(order, reg.slots.Keys)
    ensures var p := Emit(reg, order, arg, react);
      var acts := ActionsOf(reg.slots, arg, react, p.invoked);
      && p.live.next == reg.next + |Connects(acts)|
      && (forall k :: 0 <= k < |Connects(acts)| ==>
            (reg.next + k in p.live.slots <==> reg.next + k !in Disconnects(AfterConnect(acts, k))))
      && (forall k :: 0 <= k < |Connects(acts)| && reg.next + k in p.live.slots ==>
            p.live.slots[reg.next + k] == Connects(acts)[k])
      && (forall c :: c in p.invoked ==> c < reg.next)
  {
    var p := Emit(reg, order, arg, react);
    var acts := ActionsOf(reg.slots, arg, react, p.invoked);
    EmitLive(reg, order, arg, react);
    assert Applied(reg, acts, p.live);
    UnfoldAddsNew(reg, acts, p.live);
  }

  /** Only unfolds `AddsNew` into its clauses. Unfolding it inside
      `EmitNewConnections`, where `Emit` is also in scope, is too costly for
      the solver. */
  lemma UnfoldAddsNew(reg: Registry, acts: seq<Action>, r: Registry)
    requires AddsNew(reg, acts, r)
    ensures r.next == reg.next + |Connects(acts)|
    ensures forall k :: 0 <= k < |Connects(acts)| ==>
              (reg.next + k in r.slots <==> reg.next + k !in Disconnects(AfterConnect(acts, k)))
    ensures forall k :: 0 <= k < |Connects(acts)| && reg.next + k in r.slots ==> r.slots[reg.next + k] == Connects(acts)[k]
  {
  }

  /** A non-void `operator()`: emit, then hand the collected return values
      to the combiner `combine` (the template parameter `C`). */
  function EmitCombined<A, R, T>(reg: Registry, order: seq<ConnId>, arg: A,
                                 react: (SlotFn, A) -> Reaction<R>, combine: seq<R> -> T): (out: (Registry, T))
    requires reg.Valid()
    requires IsSnapshotOrder(order, reg.slots.Keys)
    ensures out.0.Valid() && out.0 == Emit(reg, order, arg, react).live
    ensures out.1 == combine(ResultsOf(reg.slots, arg, react, Emit(reg, order, arg, react).invoked))
  {
    var p := Emit(reg, order, arg, react);
    EmitOutputs(reg, order, arg, react);
    (p.live, combine(p.results))
  }

  /** The default combiner `OptionalLastValue<R>`: no value when no slot
      ran, otherwise the last slot's value. */
  function OptionalLastValue<R>(rs: seq<R>): Option<R> {
    if rs == [] then None else Some(rs[|rs| - 1])
  }

  /** No return value is collected exactly when none of the ids names a direct slot. */
  lemma {:induction false} ResultsOfEmpty<A, R>(snap: map<ConnId, Slot>, arg: A, react: (SlotFn, A) -> Reaction<R>, ids: seq<ConnId>)
    ensures ResultsOf(snap, arg, react, ids) == [] <==> forall i :: i in ids && i in snap ==> !snap[i].Direct?
    decreases |ids|
  {
    if ids != [] {
      ResultsOfEmpty(snap, arg, react, ids[1..]);
      assert forall i :: i in ids ==> i == ids[0] || i in ids[1..];
    }
  }

  /** When values are collected, the last one is the return value of the
      last direct slot among the ids. */
  lemma {:induction false} ResultsOfLast<A, R>(snap: map<ConnId, Slot>, arg: A, react: (SlotFn, A) -> Reaction<R>, ids: seq<ConnId>)
    requires ResultsOf(snap, arg, react, ids) != []
    ensures var rs := ResultsOf(snap, arg, react, ids);
      exists k :: 0 <= k < |ids| && ids[k] in snap && snap[ids[k]].Direct?
        && rs[|rs| - 1] == react(snap[ids[k]].fn, arg).result
        && forall m :: k < m < |ids| && ids[m] in snap ==> !snap[ids[m]].Direct?
    decreases |ids|
  {
    var rs := ResultsOf(snap, arg, react, ids);
    var tail := ids[1..];
    var rest := ResultsOf(snap, arg, react, tail);
    if rest != [] {
      ResultsOfLast(snap, arg, react, tail);
      var k :| 0 <= k < |tail| && tail[k] in snap && snap[tail[k]].Direct?
        && rest[|rest| - 1] == react(snap[tail[k]].fn, arg).result
        && forall m :: k < m < |tail| && tail[m] in snap ==> !snap[tail[m]].Direct?;
      assert rs[|rs| - 1] == rest[|rest| - 1];
      assert ids[k + 1] == tail[k];
      forall m | k + 1 < m < |ids| && ids[m] in snap ensures !snap[ids[m]].Direct? {
        assert ids[m] == tail[m - 1];
      }
    } else {
      ResultsOfEmpty(snap, arg, react, tail);
      assert rs == [react(snap[ids[0]].fn, arg).result];
      forall m | 0 < m < |ids| && ids[m] in snap ensures !snap[ids[m]].Direct? {
        assert ids[m] == tail[m - 1];
      }
    }
  }

  /** A non-void emission with the default combiner yields no value exactly
      when no direct slot was invoked, and otherwise the return value of the
      last direct slot invoked. */
  lemma DefaultCombinerYieldsLastValue<A, R>(reg: Registry, order: seq<ConnId>, arg: A, react: (SlotFn, A) -> Reaction<R>)
    requires reg.Valid()
    requires IsSnapshotOrder(order, reg.slots.Keys)
    ensures var v := EmitCombined(reg, order, arg, react, OptionalLastValue).1;
      var inv := Emit(reg, order, arg, react).invoked;
      && (v.None? <==> forall i :: i in inv ==> !reg.slots[i].Direct?)
      && (v.Some? ==>
            exists k :: 0 <= k < |inv| && reg.slots[inv[k]].Direct?
              && v.value == react(reg.slots[inv[k]].fn, arg).result
              && forall m :: k < m < |inv| ==> !reg.slots[inv[m]].Direct?)
  {
    var inv := Emit(reg, order, arg, react).invoked;
    assert forall k :: 0 <= k < |inv| ==> inv[k] in reg.slots;
    ResultsOfEmpty(reg.slots, arg, react, inv);
    if ResultsOf(reg.slots, arg, react, inv) != [] {
      ResultsOfLast(reg.slots, arg, react, inv);
    }
  }

  /** A walk over compositors only: each one is invoked and posts its
      request, no user callable runs, so the live map and the collected
      return values are untouched. */
  lemma {:induction false} WalkCompositors<A, R>(snap: map<ConnId, Slot>, order: seq<ConnId>, arg: A,
                                                 react: (SlotFn, A) -> Reaction<R>, acc: Pass<A, R>)
    requires acc.live.Valid()
    requires forall c :: c in order ==> c in snap && snap[c].Compositor? && c in acc.live.slots
    ensures var r := Walk(snap, order, arg, react, acc);
      r.live == acc.live && r.invoked == acc.invoked + order && r.results == acc.results
    decreases |order|
  {
    if order != [] {
      var c := order[0];
      assert c in order && c in acc.live.slots && snap[c].Compositor?;
      var acc' := Step(acc, c, snap[c], arg, react);
      assert acc' == Pass(acc.live, acc.invoked + [c], acc.results, acc.posted + [Post(snap[c].ir, snap[c].loop, snap[c].fn, arg)]);
      assert forall x :: x in order[1..] ==> x in order;
      var tail := order[1..];
      WalkCompositors(snap, tail, arg, react, acc');
      HeadTail(order);
      AppendAssoc(acc.invoked, [c], tail);
    }
  }

  /** Emitting a signal whose connections are all cross-thread posts one
      request per connection, in snapshot order, and runs no user callable:
      the map is unchanged and no return value is collected. */
  lemma CrossThreadEmissionOnlyPosts<A, R>(reg: Registry, order: seq<ConnId>, arg: A, react: (SlotFn, A) -> Reaction<R>)
    requires reg.Valid()
    requires IsSnapshotOrder(order, reg.slots.Keys)
    requires forall c :: c in reg.slots ==> reg.slots[c].Compositor?
    ensures var p := Emit(reg, order, arg, react);
      && p.live == reg
      && p.invoked == order
      && p.results == []
      && p.posted == PostsOf(reg.slots, arg, order)
  {
    WalkCompositors(reg.slots, order, arg, react, Pass(reg, [], [], []));
    EmitOutputs(reg, order, arg, react);
  }
}

=== FILE: scenarios.dfy ===
/** Concrete emissions illustrating the documented behaviour of a signal:
    order of calls, the default combiner, and reentrant connect/disconnect. */
module Scenarios {
  import opened Wrappers
  import opened Slots
  import opened Emission
  import opened Connecting

  /** Slots that return their own callable id and do nothing else. */
  function Plain(fn: SlotFn, arg: int): Reaction<int> {
    Reaction(fn, [])
  }

  /** Three connections whose callables return 1, 2 and 3. */
  function Three(): (reg: Registry)
    ensures reg.Valid() && reg.slots.Keys == {0, 1, 2}
  {
    Registry(map[0 := Direct(1), 1 := Direct(2), 2 := Direct(3)], 3)
  }

  /** Emitting three slots in snapshot order calls all three in that order;
      the default combiner yields the last value. */
  lemma OrderAndLastValue()
    ensures IsSnapshotOrder([0, 1, 2], Three().slots.Keys)
    ensures Emit(Three(), [0, 1, 2], 0, Plain).invoked == [0, 1, 2]
    ensures EmitCombined(Three(), [0, 1, 2], 0, Plain, OptionalLastValue).1 == Some(3)
  {
    var reg := Three();
    var p0 := Pass(reg, [], [], []);
    var p1 := Step(p0, 0, Direct(1), 0, Plain);
    var p2 := Step(p1, 1, Direct(2), 0, Plain);
    var p3 := Step(p2, 2, Direct(3), 0, Plain);
    assert p3.invoked == [0, 1, 2] && p3.results == [1, 2, 3];
    assert Walk(reg.slots, [2], 0, Plain, p2) == p3;
    assert [0, 1, 2][1..] == [1, 2] && [1, 2][1..] == [2];
    assert Walk(reg.slots, [1, 2], 0, Plain, p1) == p3;
    assert Walk(reg.slots, [0, 1, 2], 0, Plain, p0) == p3;
    EmitOutputs(reg, [0, 1, 2], 0, Plain);
  }

  /** A signal with no connections invokes nothing; the default combiner yields no value. */
  lemma EmptySignalHasNoValue()
    ensures EmitCombined(EmptyRegistry(), [], 0, Plain, OptionalLastValue).1 == None
  {
    EmitOutputs(EmptyRegistry(), [], 0, Plain);
  }

  /** Callable 1 disconnects connection 1 when it runs. */
  function DisconnectsSecond(fn: SlotFn, arg: int): Reaction<int> {
    if fn == 1 then Reaction(fn, [DisconnectConn(1)]) else Reaction(fn, [])
  }

  /** `Three()` after connection 1 is disconnected. */
  function WithoutSecond(): Registry {
    Registry(map[0 := Direct(1), 2 := Direct(3)], 3)
  }

  /** The first turn of emitting `Three()` with `DisconnectsSecond`:
      callable 1 runs and erases connection 1. */
  lemma DisconnectsSecondFirstTurn()
    ensures Step(Pass(Three(), [], [], []), 0, Direct(1), 0, DisconnectsSecond) == Pass(WithoutSecond(), [0], [1], [])
  {
    var r := Disconnect(Three(), 1);
    assert r.slots == WithoutSecond().slots;
    assert Apply(r, []) == r;
  }

  /** The remaining turns: connection 1 is skipped, callable 3 runs. */
  lemma DisconnectsSecondLaterTurns()
    ensures Walk(Three().slots, [1, 2], 0, DisconnectsSecond, Pass(WithoutSecond(), [0], [1], []))
         == Pass(WithoutSecond(), [0, 2], [1, 3], [])
  {
    var p1 := Pass(WithoutSecond(), [0], [1], []);
    assert Step(p1, 1, Direct(2), 0, DisconnectsSecond) == p1;
    var p3 := Step(p1, 2, Direct(3), 0, DisconnectsSecond);
    assert p3 == Pass(WithoutSecond(), [0, 2], [1, 3], []);
    assert [1, 2][1..] == [2];
    assert Walk(Three().slots, [2], 0, DisconnectsSecond, p1) == p3;
  }

  /** The first slot disconnects the second during the emission: the second
      is skipped, the third still runs, and only two values reach the combiner. */
  lemma ReentrantDisconnectSkips()
    ensures Emit(Three(), [0, 1, 2], 0, DisconnectsSecond).invoked == [0, 2]
    ensures Emit(Three(), [0, 1, 2], 0, DisconnectsSecond).results == [1, 3]
    ensures 1 !in Emit(Three(), [0, 1, 2], 0, DisconnectsSecond).live.slots
  {
    DisconnectsSecondFirstTurn();
    DisconnectsSecondLaterTurns();
    assert [0, 1, 2][1..] == [1, 2];
    assert Walk(Three().slots, [0, 1, 2], 0, DisconnectsSecond, Pass(Three(), [], [], []))
        == Pass(WithoutSecond(), [0, 2], [1, 3], []);
  }

  /** Callable 1 connects callable 7 when it runs. */
  function ConnectsNew(fn: SlotFn, arg: int): Reaction<int> {
    if fn == 1 then Reaction(fn, [ConnectSlot(Direct(7))]) else Reaction(fn, [])
  }

  /** `Three()` after callable 1 has connected callable 7. */
  function Four(): Registry {
    Registry(map[0 := Direct(1), 1 := Direct(2), 2 := Direct(3), 3 := Direct(7)], 4)
  }

  /** The first turn of emitting `Three()` with `ConnectsNew`: callable 1 runs
      and its connect takes the next identity, 3. */
  lemma ConnectsNewFirstTurn()
    ensures Step(Pass(Three(), [], [], []), 0, Direct(1), 0, ConnectsNew) == Pass(Four(), [0], [1], [])
  {
    var r := Connect(Three(), Direct(7)).0;
    assert r.slots == Four().slots;
    assert Apply(r, []) == r;
  }

  /** The remaining turns: callables 2 and 3 run and connect nothing. */
  lemma ConnectsNewLaterTurns()
    ensures Walk(Three().slots, [1, 2], 0, ConnectsNew, Pass(Four(), [0], [1], []))
         == Pass(Four(), [0, 1, 2], [1, 2, 3], [])
  {
    var p1 := Pass(Four(), [0], [1], []);
    var p2 := Step(p1, 1, Direct(2), 0, ConnectsNew);
    assert p2 == Pass(Four(), [0, 1], [1, 2], []);
    var p3 := Step(p2, 2, Direct(3), 0, ConnectsNew);
    assert p3 == Pass(Four(), [0, 1, 2], [1, 2, 3], []);
    assert [1, 2][1..] == [2];
    assert Walk(Three().slots, [2], 0, ConnectsNew, p2) == p3;
  }

  /** A slot connected during an emission is registered afterwards but is
      not called in that emission. */
  lemma ReentrantConnectWaits()
    ensures var p := Emit(Three(), [0, 1, 2], 0, ConnectsNew);
      && p.invoked == [0, 1, 2]
      && 3 in p.live.slots && p.live.slots[3] == Direct(7)
      && 3 !in p.invoked
  {
    ConnectsNewFirstTurn();
    ConnectsNewLaterTurns();
    assert [0, 1, 2][1..] == [1, 2];
    assert Walk(Three().slots, [0, 1, 2], 0, ConnectsNew, Pass(Three(), [], [], []))
        == Pass(Four(), [0, 1, 2], [1, 2, 3], []);
  }

  /** Disconnecting before an emission means the slot is not called by it. */
  lemma DisconnectedBeforeEmissionNotCalled<A, R>(reg: Registry, c: ConnId, order: seq<ConnId>, arg: A,
                                                  react: (SlotFn, A) -> Reaction<R>)
    requires reg.Valid()
    requires IsSnapshotOrder(order, Disconnect(reg, c).slots.Keys)
    ensures c !in Emit(Disconnect(reg, c), order, arg, react).invoked
  {
  }

  /** Connecting cross-thread to a fresh signal and emitting it posts the
      bound call to the event loop, with the invalidation record, and runs
      no user callable: whatever the callable would do to the signal, the map
      is unchanged and no return value is collected. */
  lemma CrossThreadConnectThenEmit<A, R>(loops: map<IrId, LoopId>, ir: Option<IrId>, fn: SlotFn, loop: LoopId,
                                         arg: A, react: (SlotFn, A) -> Reaction<R>)
    ensures var (cn, loops') := ConnectCrossThread(EmptyRegistry(), List([]), loops, ir, fn, loop);
      var p := Emit(cn.reg, [cn.conn], arg, react);
      && (ir.Some? ==> loops'[ir.value] == loop)
      && p.posted == [Post(ir, loop, fn, arg)]
      && p.results == []
      && p.live == cn.reg
  {
    var (cn, loops') := ConnectCrossThread(EmptyRegistry(), List([]), loops, ir, fn, loop);
    assert cn.reg.slots.Keys == {cn.conn};
    CrossThreadEmissionOnlyPosts(cn.reg, [cn.conn], arg, react);
    assert [cn.conn][1..] == [];
  }
}

=== FILE: sequences.dfy ===
/** Facts about sequences of connection ids used by the emission model. */
module Sequences {

  /** No element occurs twice. */
  ghost predicate Distinct<T>(s: seq<T>) {
    forall i, j :: 0 <= i < j < |s| ==> s[i] != s[j]
  }

  /** `xs` is obtained from `ys` by deleting some elements, keeping the order of the rest. */
  predicate IsSubseq<T(==)>(xs: seq<T>, ys: seq<T>)
    decreases |ys|
  {
    if xs == [] then true
    else if ys == [] then false
    else (xs[0] == ys[0] && IsSubseq(xs[1..], ys[1..])) || IsSubseq(xs, ys[1..])
  }

  /** Concatenation is associative. */
  lemma AppendAssoc<T>(a: seq<T>, b: seq<T>, c: seq<T>)
    ensures (a + b) + c == a + (b + c)
  {
  }

  /** A non-empty sequence is its head followed by its tail. */
  lemma HeadTail<T>(s: seq<T>)
    requires s != []
    ensures s == [s[0]] + s[1..]
  {
  }

  /** Dropping a known prefix `a` of `s` leaves the next part `b` followed by the rest. */
  lemma DropPrefix<T>(a: seq<T>, b: seq<T>, s: seq<T>)
    requires a + b <= s
    ensures s[|a|..] == b + s[|a| + |b|..]
  {
  }

  /** Every element of a subsequence is an element of the whole. */
  lemma {:induction false} SubseqMembers<T>(xs: seq<T>, ys: seq<T>)
    requires IsSubseq(xs, ys)
    ensures forall x :: x in xs ==> x in ys
    decreases |ys|
  {
    if xs != [] {
      if xs[0] == ys[0] && IsSubseq(xs[1..], ys[1..]) {
        SubseqMembers(xs[1..], ys[1..]);
        forall x | x in xs ensures x in ys {
          if x != xs[0] {
            assert x in xs[1..];
            assert x in ys[1..];
          }
        }
      } else {
        SubseqMembers(xs, ys[1..]);
      }
    }
  }

  /** A subsequence of a sequence without repetitions has no repetitions either. */
  lemma {:induction false} SubseqDistinct<T>(xs: seq<T>, ys: seq<T>)
    requires IsSubseq(xs, ys)
    requires Distinct(ys)
    ensures Distinct(xs)
    decreases |ys|
  {
    if xs != [] {
      assert Distinct(ys[1..]) by {
        forall i, j | 0 <= i < j < |ys[1..]| ensures ys[1..][i] != ys[1..][j] {
          assert ys[1..][i] == ys[i + 1] && ys[1..][j] == ys[j + 1];
        }
      }
      if xs[0] == ys[0] && IsSubseq(xs[1..], ys[1..]) {
        SubseqDistinct(xs[1..], ys[1..]);
        SubseqMembers(xs[1..], ys[1..]);
        forall i, j | 0 <= i < j < |xs| ensures xs[i] != xs[j] {
          if i == 0 {
            assert xs[j] == xs[1..][j - 1];
            assert xs[j] in ys[1..];
            var k :| 0 <= k < |ys[1..]| && ys[1..][k] == xs[j];
            assert ys[k + 1] == xs[j];
          } else {
            assert xs[i] == xs[1..][i - 1] && xs[j] == xs[1..][j - 1];
          }
        }
      } else {
        SubseqDistinct(xs, ys[1..]);
      }
    }
  }
}

=== FILE: slots.dfy ===
/** The signal's slot table: a map from connection tokens to the slot each
    token stands for, with the operations that read or change it under the
    signal's mutex. Each lock region is modelled as one atomic step. */
module Slots {
  import opened Wrappers
  import opened Sequences

  /** Identity of a `Connection` object, the map's key. */
  type ConnId = nat
  /** Identity of a user callable (`slot_function_type`). */
  type SlotFn = nat
  /** Identity of an `EventLoop`. */
  type LoopId = nat
  /** Identity of an `EventLoop::InvalidationRecord`. */
  type IrId = nat

  /** What the map stores for a connection: the user's callable itself
      (same-thread connect) or the `compositor` wrapper that forwards the
      call to an event loop (cross-thread connect). */
  datatype Slot =
    | Direct(fn: SlotFn)
    | Compositor(fn: SlotFn, loop: LoopId, ir: Option<IrId>)

  /** The `_slots` map. `next` is the identity the next `new Connection`
      receives: a connection object is never the key of another live entry. */
  datatype Registry = Registry(slots: map<ConnId, Slot>, next: ConnId) {
    ghost predicate Valid() {
      forall c :: c in slots ==> c < next
    }
  }

  /** A signal with no connections. */
  function EmptyRegistry(): (r: Registry)
    ensures r.Valid() && IsEmpty(r)
  {
    Registry(map[], 0)
  }

  /** `empty()`: true exactly when no connection is registered. */
  function IsEmpty(reg: Registry): (b: bool)
    ensures b <==> |reg.slots| == 0
  {
    reg.slots == map[]
  }

  /** `empty()` follows connects and disconnects: false right after a
      connect, true again once that only connection is gone. */
  lemma EmptyTracksConnections(reg: Registry, slot: Slot)
    requires reg.Valid() && IsEmpty(reg)
    ensures var (r, c) := Connect(reg, slot); !IsEmpty(r) && IsEmpty(Disconnect(r, c))
  {
  }

  /** The number of registered connections: what `size()` is evidently meant to return. */
  function Size(reg: Registry): (n: nat)
    ensures n == 0 <==> IsEmpty(reg)
  {
    |reg.slots|
  }

  /** `size()` as written: declared `bool`, so the count is converted to
      "is non-empty" before the caller sees it. */
  function SizeAsWritten(reg: Registry): (b: bool)
    ensures b <==> !IsEmpty(reg)
  {
    |reg.slots| != 0
  }

  /** The count a caller reads back from `size()` when it uses the result as a number. */
  function AsCount(b: bool): nat {
    if b then 1 else 0
  }

  /** `size()` as written loses the count: on any signal with two or more
      connections, the value read back differs from the number of connections. */
  lemma SizeAsWrittenLosesCount(reg: Registry)
    requires Size(reg) >= 2
    ensures AsCount(SizeAsWritten(reg)) == 1 != Size(reg)
  {
  }

  /** A concrete signal with two connections on which `size()` reads back 1. */
  lemma SizeAsWrittenCounterexample()
    ensures var reg := Registry(map[0 := Direct(0), 1 := Direct(1)], 2);
      Size(reg) == 2 && AsCount(SizeAsWritten(reg)) == 1
  {
  }

  /** `_connect`: a fresh connection is created and mapped to `slot`; nothing
      else in the map changes. */
  function Connect(reg: Registry, slot: Slot): (out: (Registry, ConnId))
    requires reg.Valid()
    ensures out.0.Valid()
    ensures out.1 !in reg.slots
    ensures out.0.slots.Keys == reg.slots.Keys + {out.1}
    ensures out.1 in out.0.slots && out.0.slots[out.1] == slot
    ensures forall k :: k in reg.slots ==> out.0.slots[k] == reg.slots[k]
    ensures out.0.next > out.1 >= reg.next
    ensures Size(out.0) == Size(reg) + 1
  {
    var c := reg.next;
    (Registry(reg.slots[c := slot], c + 1), c)
  }

  /** `disconnect(c)`: erase `c`'s entry. Erasing an absent key does nothing. */
  function Disconnect(reg: Registry, c: ConnId): (r: Registry)
    ensures r.slots.Keys == reg.slots.Keys - {c}
    ensures forall k :: k in r.slots ==> r.slots[k] == reg.slots[k]
    ensures r.next == reg.next
    ensures reg.Valid() ==> r.Valid()
    ensures c !in reg.slots ==> r == reg
    ensures c in reg.slots ==> Size(r) == Size(reg) - 1
  {
    var r := Registry(reg.slots - {c}, reg.next);
    assert c !in reg.slots ==> r.slots == reg.slots;
    r
  }

  /** Disconnecting twice is the same as disconnecting once. */
  lemma DisconnectIdempotent(reg: Registry, c: ConnId)
    ensures Disconnect(Disconnect(reg, c), c) == Disconnect(reg, c)
  {
  }

  /** Disconnecting the connection just made restores the map as it was. */
  lemma DisconnectUndoesConnect(reg: Registry, slot: Slot)
    requires reg.Valid()
    ensures var (r, c) := Connect(reg, slot); Disconnect(r, c).slots == reg.slots
  {
  }

  /** Two disconnects commute. */
  lemma DisconnectCommutes(reg: Registry, a: ConnId, b: ConnId)
    ensures Disconnect(Disconnect(reg, a), b) == Disconnect(Disconnect(reg, b), a)
  {
    var ab := Disconnect(Disconnect(reg, a), b);
    var ba := Disconnect(Disconnect(reg, b), a);
    assert ab.slots.Keys == ba.slots.Keys;
    assert ab.slots == ba.slots;
  }

  /** The destructor: every connection still in the map is told that the
      signal is going away, so that a later `disconnect` through it does not
      reach the destroyed signal. `told` is the set of connection objects
      already carrying that mark; `notified` lists the calls to
      `signal_going_away` in the order they are made. */
  method Destroy(reg: Registry, told: set<ConnId>) returns (told': set<ConnId>, notified: seq<ConnId>)
    ensures forall c :: c in notified <==> c in reg.slots
    ensures Distinct(notified)
    ensures told' == told + reg.slots.Keys
  {
    var rest := reg.slots.Keys;
    told' := told;
    notified := [];
    while rest != {}
      invariant rest <= reg.slots.Keys
      invariant forall c :: c in notified <==> c in reg.slots && c !in rest
      invariant Distinct(notified)
      invariant told' == told + (reg.slots.Keys - rest)
      decreases rest
    {
      var c :| c in rest;
      told' := told' + {c};
      notified := notified + [c];
      rest := rest - {c};
    }
  }
}

=== FILE: text.dfy ===
/** The generator's string helper `comma_separated`: it joins a list of
    substrings with ", " and gives each one an optional prefix. */
module Text {

  /** Reference meaning: every item prefixed by `prefix`, consecutive items
      separated by exactly one ", ", nothing before the first or after the last. */
  function Joined(items: seq<string>, prefix: string): string
    decreases |items|
  {
    if |items| == 0 then ""
    else if |items| == 1 then prefix + items[0]
    else prefix + items[0] + ", " + Joined(items[1..], prefix)
  }

  /** Joining two non-empty lists puts exactly one separator at the seam. */
  lemma {:induction false} JoinedAppend(xs: seq<string>, ys: seq<string>, prefix: string)
    requires |xs| > 0 && |ys| > 0
    ensures Joined(xs + ys, prefix) == Joined(xs, prefix) + ", " + Joined(ys, prefix)
    decreases |xs|
  {
    assert (xs + ys)[0] == xs[0];
    assert (xs + ys)[1..] == xs[1..] + ys;
    if |xs| > 1 {
      JoinedAppend(xs[1..], ys, prefix);
    }
  }

  /** The generator's loop: build the string left to right, emitting ", "
      before every item except the first. */
  method CommaSeparated(n: seq<string>, prefix: string) returns (r: string)
    ensures r == Joined(n, prefix)
    ensures |n| == 0 ==> r == ""
    ensures |n| > 0 ==> r[..|prefix + n[0]|] == prefix + n[0]
  {
    r := "";
    var i := 0;
    while i < |n|
      invariant 0 <= i <= |n|
      invariant r == Joined(n[..i], prefix)
    {
      if i > 0 {
        r := r + ", ";
        JoinedAppend(n[..i], [n[i]], prefix);
      }
      assert n[..i + 1] == n[..i] + [n[i]];
      r := r + (prefix + n[i]);
      i := i + 1;
    }
    assert n[..|n|] == n;
    if |n| > 0 {
      JoinedStartsWithFirst(n, prefix);
    }
  }

  /** A non-empty join starts with the first item and its prefix. */
  lemma JoinedStartsWithFirst(items: seq<string>, prefix: string)
    requires |items| > 0
    ensures |prefix + items[0]| <= |Joined(items, prefix)|
    ensures Joined(items, prefix)[..|prefix + items[0]|] == prefix + items[0]
  {
  }
}

=== FILE: wrappers.dfy ===
/** An optional value type used by the signal model. */
module Wrappers {

  /** An optional value: `None` stands for a null pointer or an empty `boost::optional`. */
  datatype Option<+T> = None | Some(value: T)
}
